=== FILE: README.md ===
# nozzle, modelled in Dafny

nozzle is a small static-site generator (`nozzle.js`). `nozzle g` takes every
file under `content/` and splits off its `---`-fenced YAML front matter. It
builds a page record: title, format, destination, URL, collection and
metadata. It sorts the pages newest first, then groups their metadata into
per-collection arrays of a shared `site` object, so every collection array
is newest first too. Then it renders each page. Rendering
is a chain: first the page's own format (Markdown or Jade), then layout after
layout from `layouts/<name>.jade`, until no layout is left. The result is
written to `site/<dest>`.

This project models the pure logic of that pipeline:

- the front-matter splitter;
- the page builder;
- the collection grouper;
- the date ordering of discovered pages;
- the layout-chain state machine of `render`;
- the orchestration that ties them together.

The filesystem, the YAML parser, `markdown.toHTML` and `jade.render` become
inputs:

- the discovered files are a list of `SourceFile` (directory segments, name,
  modification time, text);
- the layouts directory is a map from layout name to file text;
- the three libraries are function-valued fields of `Engines`.

The YAML parser returns `None` where `yaml.eval` would throw. An error that
aborts the run is a `Failure`:

- a YAML error;
- a missing layout file;
- a push onto a site key that is not an array;
- running out of fuel.

Files and the modules they hold:

- `results.dfy`: `Results` (Option, Result, an in-order map that stops at the first failure) and `Failures` (the run's errors).
- `text.dfy`: `Text`, JavaScript's `indexOf`, `split` and `join` on strings.
- `values.dfy`: `Values`, JavaScript values, truthiness, `String()`, `||`, and `apply`.
- `front_matter.dfy`: `FrontMatter`, `getHeaderAndContent`.
- `paths.dfy`: `Paths`, `extname`, `basename`, `normalize` on segment lists, destination, URL, collection.
- `pages.dfy`: `Pages`, the page record, `existentLayout` and `createPage`.
- `rendering.dfy`: `Rendering`, the `render` state machine.
- `collections.dfy`: `Collections`, `groupPages`.
- `sorting.dfy`: `Sorting`, a generic stable sort into non-increasing key order, and the fact that mapping keeps reorderings.
- `discovery.dfy`: `Discovery`, `getPages` after the directory walk.
- `pipeline.dfy`: `Pipeline`, `generate`.

## Behaviour worth knowing

- **A layout that names itself recurses forever.** A layout pass resets the
  pointer to the default layout, or to nothing once the default layout has
  been applied (nozzle.js:295-298). But a truthy `layout` header in the
  layout file then overrides that reset (nozzle.js:307-308). So a layout
  whose header names itself, the default layout included, is applied again
  on every pass. `Rendering.SelfNamedLayoutNeverEnds` proves that no fuel
  suffices, and `Rendering.LayoutCycleNeverEnds` proves the same for two
  layouts that name each other.
- **A missing default layout file aborts the run.** Only the starting layout
  is probed for existence (nozzle.js:233, 323-325). A layout pass resets the
  pointer to `layout` without probing (nozzle.js:295), and the next pass
  reads that file unconditionally (nozzle.js:289). So a page whose collection
  layout exists, with no `layouts/layout.jade`, fails on the missing default
  layout (`Rendering.CollectionLayoutNeedsDefault`).
- **Front matter can override `collection` and `date`.** Grouping reads
  `locals.page.collection` after the front matter is merged in (nozzle.js:161).
  The sort reads `locals.page.date` the same way (nozzle.js:193). So a
  `collection:` or `date:` header overrides the path-derived collection and the
  modification time. The model groups and sorts on the merged metadata. The
  starting layout is still chosen from the path-derived collection
  (nozzle.js:233).
- **A root-level page gets its own directory.** A root-level `content/about.md`
  is written to `about/index.html`. Only a file titled `index` is written as
  `<dir>/index.html` (nozzle.js:219).

## Model

| member | source | states |
|---|---|---|
| Text.IndexOf | nozzle.js:263 | `indexOf` returns -1 exactly when the separator does not occur; otherwise it returns the first occurrence, with no earlier one. |
| Text.IndexOfZero | nozzle.js:263 | `!content.indexOf(sep)` holds exactly when the text begins with the separator. |
| Text.Split | nozzle.js:266 | `split` yields at least one piece, and at least two exactly when the separator occurs. No piece contains the separator. |
| Text.JoinSplit | nozzle.js:266-269 | Re-joining the pieces of a split with the same separator gives back the original text. |
| FrontMatter.CutHeader | nozzle.js:261-271 | Without a leading `---` the body is the whole input. With one, the header text holds no `---`. When a second `---` exists, `"---" + header + "---" + body` is the input, so later `---` in the body survive. With only one separator, the header text is everything after it and the body is empty. |
| FrontMatter.CutHeaderFirst | nozzle.js:263-269 | The header text runs up to the first `---` after the opening one, and the body is everything after that `---`. |
| FrontMatter.CutHeaderHomeExample | nozzle.js:261-271 | For `---`, a `t: A` line, `---`, then `B`, the header text is the `t: A` line with its line breaks and the body is a line break followed by `B`. |
| FrontMatter.NoHeaderExample | nozzle.js:263 | Text not opening with `---` is all body. |
| FrontMatter.LaterSeparatorExample | nozzle.js:266-269 | In `---a---b---c` the header text is `a` and the body keeps its `---`, as `b---c`. |
| FrontMatter.UnclosedHeaderExample | nozzle.js:266-269 | In `---a` the header text is `a` and the body is empty. |
| FrontMatter.GetHeaderAndContent | nozzle.js:261-272 | Input without a leading `---` gives the empty header and the unchanged content. Otherwise it fails exactly when the YAML parse of the header text fails. On success the parsed header and content satisfy the same round trip. |
| Values.ToStr | nozzle.js:161-164 | `String()` of a string is the string itself. For a number it is its canonical decimal numeral: digits that read back as the number, with no leading zero, behind a `-` exactly when the number is negative. An empty array gives the empty string, a one-element array its element's string, and a plain object `[object Object]`. |
| Values.NumberKeyExample | nozzle.js:161-164 | `String(5)` and `String('5')` are both `5`, so a `collection: 5` header and a `content/5/` directory group under the same key; `String(-12)` is `-12`. |
| Values.NatToStringRoundTrip | nozzle.js:161-164 | Reading a number's decimal numeral back gives the number, so distinct numbers give distinct property keys. |
| Values.Get | nozzle.js:250 | Reading a property gives its value when the key is present, and `undefined` (modelled as `Null`) when it is missing. |
| Values.Or | nozzle.js:308 | `a || b` is truthy exactly when either operand is, is always one of the two operands, and is `a` whenever `a` is truthy. |
| Values.Apply | nozzle.js:397-402 | `apply` keeps every key of either object. A key of the source takes the source's value. Every other key keeps the destination's value. |
| Paths.Extname | nozzle.js:203 | The format is a suffix of the file name. It is empty, or a dot followed by no further dot that does not begin the name. Apart from `..`, it is empty only when the name has no dot after its first character. |
| Paths.Title | nozzle.js:206 | Title followed by format is the file name. The title is non-empty whenever there is a format. |
| Paths.Normalize | nozzle.js:220-222 | The normalised path has no empty or `.` segment, `..` only as a leading run, none at all when absolute, and no more segments than its input. |
| Paths.NormalizeCanonical | nozzle.js:220-222 | A path already in that normal form is left unchanged. |
| Paths.NormalizeIdempotent | nozzle.js:220-222 | Normalising a normalised path changes nothing. |
| Paths.NormalizeClean | nozzle.js:220 | Normalising a path whose segments are all ordinary leaves it unchanged. |
| Paths.Dest | nozzle.js:215-220 | The destination always ends in `index.html`. For ordinary segments, title `index` gives `dir/index.html` and any other title gives `dir/<title>/index.html`, where `dir` drops the content root. |
| Paths.Url | nozzle.js:222 | The URL is absolute. For ordinary segments it is `/` followed by the destination's directory joined with `/`. For a root index page this is `/`. |
| Paths.Collection | nozzle.js:224-226 | The collection is present exactly when the directory has more than one segment, and it is then the second segment. |
| Paths.TitleExample | nozzle.js:203-206 | `index.md` has format `.md` and title `index`. `.bashrc` has no format and keeps its whole name as title. |
| Paths.DestExamples | nozzle.js:215-220 | `content/blog/index.md` goes to `blog/index.html`, `content/blog/hello.md` to `blog/hello/index.html`, and `content/about.md` to `about/index.html`. |
| Paths.UrlExamples | nozzle.js:222-226 | The root index page's URL is `/`, a post's is `/blog/hello`. A root-level file has no collection, and a file under `content/posts/x` is in `posts`. |
| Pages.ExistentLayout | nozzle.js:323-325 | The probe returns the layout's name exactly when its file exists, and nothing otherwise. |
| Pages.StartLayout | nozzle.js:233 | The starting layout is the collection's own layout when that file exists. Otherwise it is the default layout when that file exists, and none otherwise. |
| Pages.Defaults | nozzle.js:243-247 | The default metadata has `title`, `date` and `url`, plus `collection` exactly when there is one. It never has `layout`. |
| Pages.MergeHeader | nozzle.js:249-252 | `headerLayout` is the header's `layout`. The metadata keys are the defaults plus the header keys other than `layout`. Each of those header keys overrides its default. Defaults the header does not mention keep their value. |
| Pages.CreatePage | nozzle.js:201-255 | Building a page fails exactly when its front matter fails to parse. |
| Pages.CreatePageShape | nozzle.js:201-241 | The page has the format from the file name and the destination from its directories and title. Its starting layout comes from its collection and its content is what follows the front matter. It starts in the content phase with no site or content locals. |
| Pages.CreatePageMetadata | nozzle.js:243-252 | `layout` never appears in the page metadata and is kept as `headerLayout`. Every other header key overrides its default. Title, date, url and collection keep their path-derived values unless the header names them. |
| Rendering.LooseEqualsDefault | nozzle.js:312 | The loose `==` against `layout` holds for a string exactly when it is that word. It never holds for `null`, booleans, numbers or plain objects. An array matches through its string form, so `["layout"]` matches and `[]` does not. |
| Rendering.Transform | nozzle.js:301-305 | A `.md` pass runs the Markdown converter on the content, a `.jade` pass runs Jade on the content with the page's locals, and any other format passes the content through unchanged. |
| Rendering.Enter | nozzle.js:281-299 | A content pass only exposes the site. A layout pass fails with a missing-layout error when the layout file is missing. When the file exists, it succeeds exactly when the file's front matter parses, and otherwise fails with that parse error. On success it forces `.jade`, exposes the prior content as `locals.content`, and takes the layout file's body and `layout` header. It resets the pointer to the default layout, or to none when the previous pass targeted the default. |
| Rendering.NextLayout | nozzle.js:307-308 | `layout: false` leaves no next layout. Otherwise a truthy header layout wins, and a falsy one keeps the pointer. |
| Rendering.ChainStep | nozzle.js:295-308 | The pointer after a pass: none for `layout: false`, else a truthy header layout. Otherwise it is the pointer itself on a content pass, and on a layout pass none if the default layout was just applied and the default layout if not. |
| Rendering.Pass | nozzle.js:281-308 | A content pass cannot fail, keeps its format and exposes the site. A layout pass succeeds exactly when its set-up does, failing with the set-up's error otherwise; on success it forces `.jade` and exposes the prior content. Either way the next pointer follows the chain step, and source, destination and phase flags are kept. |
| Rendering.Render | nozzle.js:278-317 | A finished render keeps source, destination and metadata. It has no truthy layout left and exposes the site. After any wrap it ends in `.jade` with `locals.content` set. Without a wrap it keeps the page's own format. |
| Rendering.RenderFuelMonotone | nozzle.js:310-314 | A render that did not run out of fuel gives the same result with any larger fuel. |
| Rendering.SuppressedPageIsNotWrapped | nozzle.js:307 | A page with `layout: false` is rendered once in its own format and never wrapped. |
| Rendering.DefaultLayoutWrapsOnce | nozzle.js:284-313 | A page with no layout request, starting on a default layout that asks for no parent, renders in exactly two passes. The result is the default layout's Jade render with the first pass's output as `content`. |
| Rendering.LayoutPassUnchained | nozzle.js:294-298 | When no layout file names a parent, a layout pass leaves no next layout, or leaves the default layout and was not itself applying it. |
| Rendering.WrapEndsWithoutChaining | nozzle.js:294-314 | When no layout file names a parent, a layout pass finishes within two more passes, or within one if it applies the default layout. |
| Rendering.RenderEndsWithoutChaining | nozzle.js:278-317 | When no layout file names a parent, every page's render finishes within three passes, or fails on a missing or unparsable layout file, but never runs out of fuel. |
| Rendering.LayoutPassFollowsRequest | nozzle.js:294-308 | A layout pass whose layout file parses and asks for a truthy layout succeeds and points at that layout. |
| Rendering.LayoutCycleNeverEnds | nozzle.js:294-313 | Two layouts whose headers name each other are applied in turn on every pass, so the render runs out of any fuel, whether or not one of them is the default layout. |
| Rendering.SelfNamedLayoutNeverEnds | nozzle.js:294-313 | A layout whose own header names it is applied again on every pass, so the render runs out of any fuel. |
| Rendering.CollectionLayoutNeedsDefault | nozzle.js:289-295 | A page whose collection layout exists and asks for no parent, with no default layout file, fails on the missing default layout. |
| Collections.GroupPage | nozzle.js:160-166 | A page without a truthy collection leaves the site unchanged. Otherwise its metadata is appended at the end of `site[collection]`, which is created empty if missing. Every other key is unchanged. It fails exactly when the key holds a non-array, or is missing but inherited from `Object.prototype`. |
| Collections.GroupPages | nozzle.js:106 | Grouping every page keeps every existing site key, and a key that held an array still holds one. |
| Collections.GroupPagesFails | nozzle.js:106 | Grouping fails exactly when some page names a collection whose key, as the site object was before grouping, holds a non-array or is missing but inherited from `Object.prototype`. Keys that grouping creates are arrays, so no page blocks a later one. |
| Collections.Members | nozzle.js:160-166 | A collection gets no members exactly when no page names it. |
| Collections.GroupPagesContents | nozzle.js:160-166 | After grouping every page, each collection holds its earlier items followed by its pages' metadata, in page order. A key no page names is unchanged. |
| Sorting.InsertSorted | nozzle.js:192-194 | Inserting into a non-increasing list adds exactly the new element and keeps the list non-increasing. |
| Sorting.SortDescending | nozzle.js:192-194 | The sort is a permutation of its input with non-increasing keys. |
| Discovery.DateKey | nozzle.js:193 | The sort key is the date as the subtraction coerces it: a number is itself, `true` is 1, and `null`, `false`, the empty string and the empty array are 0. |
| Discovery.SortByDate | nozzle.js:191-194 | The ordered pages are a permutation of the discovered pages, with non-increasing dates. |
| Discovery.CreatePages | nozzle.js:178-187 | Creating the pages gives one page per discovered file. |
| Discovery.GetPages | nozzle.js:172-195 | `getPages` fails exactly when some file's front matter fails. On success it returns a permutation of the created pages, newest first. |
| Discovery.CreatedDests | nozzle.js:215-220 | The page created from each discovered file has the destination computed from that file's directories and title. |
| Pipeline.RenderAll | nozzle.js:109 | Rendering all pages succeeds exactly when every page renders. There is one output per page, in page order, at the page's destination, holding its rendered content. |
| Pipeline.Generate | nozzle.js:94-113 | One successful run of the generation callback writes exactly one output per discovered file: the multiset of destinations written equals the multiset of destinations computed from the files' paths. |
| Pipeline.OutputsAtFileDests | nozzle.js:100-109 | Outputs that follow a reordering of the created pages have the files' destinations as a multiset, so they match the files one to one. |
| Sorting.MapPermutation | nozzle.js:192-194 | Mapping two reorderings of a list gives reorderings of one list: sorting the pages does not change which destinations they carry. |

## Left out

- Command-line dispatch, usage and version output, and `abort` (nozzle.js:56-88, 388-391): process plumbing.
- The preview server (nozzle.js:331-343): network I/O over an external library.
- `refresh`, `copyPublicFiles`, `save` and the shell helpers (nozzle.js:119-135, 150-154, 353-382): asynchronous external processes and file writes. The writes are returned as a list of outputs instead. `save` writes in callbacks, so their real order is not fixed.
- Pipeline.Generate: models one run of the `refresh` callback. When `site/` is missing, nozzle.js:120-122 runs that callback twice, once after the first `mkdir` and again after `rmdir`, since nothing returns in between. So every page is written twice, and when `config.yaml` has a `site` mapping, the second run groups every page into that same object again and renders against the doubled collection arrays.
- `getConfig` and the directory walk in `getPages` (nozzle.js:141-144, 172-189): filesystem reads. The `site` object from `config.yaml` and the discovered files are inputs.
- `yaml.eval`, `markdown.toHTML` and `jade.render`: foreign libraries, kept as uninterpreted fields of `Engines`. A Jade render that throws is not modelled.
- FrontMatter.GetHeaderAndContent: a header document that parses to something other than a mapping counts as a parse failure. In the source a null document throws on `header.layout`, and a scalar document is merged key by key.
- Paths.Dest: paths are lists of segments and file names contain no `/`. `path.join` and `path.normalize` are modelled on those segments, not on strings.
- Layout files are looked up by the raw `String()` of the layout pointer, with no path normalisation of names containing `/` or `..`.
- Dates are integer milliseconds and YAML numbers are integers. The page's default `date` is `Num(mtime)` rather than a `Date` object. The two subtract the same in the sort; only template code could tell them apart.
- Discovery.DateKey: a front-matter `date` that is a string, array or object sorts as 0. In JavaScript the subtraction coerces a numeric string to its number. An array coerces through its string form, so `[]` counts as 0 and `[3]` as 3. A non-numeric string or a plain object makes the comparator NaN, which leaves the order to the engine. The model gives the empty string and the empty array 0, as JavaScript does, and every other string, array or object 0 as well.
- Discovery.SortByDate: orders by `Discovery.DateKey`, so the coercions above carry over to the sort.
- Discovery.SortByDate: the model's sort is stable, but the contract only promises a permutation in non-increasing date order, as the engine's sort does.
- `undefined` and `null` are one value, `Null`. A missing `collection` is an absent key rather than a key holding `undefined`.
- Object.prototype properties are modelled only where grouping meets them (`key in site`), not in `apply` or elsewhere.
- Rendering.Render: the source recurses without bound. The model stops after `fuel` passes with `OutOfFuel`, so a chain longer than the fuel is reported rather than followed.

=== FILE: collections.dfy ===
/**
 * `groupPages`: every page with a collection appends its metadata to the
 * site object's array of that name, so templates can list a collection.
 */
module Collections {
  import opened Results
  import opened Failures
  import opened Values
  import opened Pages

  /**
   * The properties every plain object inherits from `Object.prototype`:
   * `key in site` holds for them, and `site[key].push` is not a function.
   */
  const Inherited: set<string> := {
    "constructor", "hasOwnProperty", "isPrototypeOf", "propertyIsEnumerable",
    "toLocaleString", "toString", "valueOf", "__proto__",
    "__defineGetter__", "__defineSetter__", "__lookupGetter__", "__lookupSetter__"}

  /** The site key a page is grouped under: `String(locals.page.collection)` when truthy. */
  function CollectionKey(meta: Dict): Option<string> {
    var c := Get(meta, "collection");
    if Truthy(c) then Some(ToStr(c)) else None
  }

  /** The metadata already listed under `key`. */
  function Listed(site: Dict, key: string): seq<Value> {
    if key in site && site[key].List? then site[key].items else []
  }

  /** `groupPages(page, site)` on the page's metadata. */
  function GroupPage(site: Dict, meta: Dict): (r: Result<Dict, Error>)
    ensures CollectionKey(meta).None? ==> r == Success(site)
    ensures CollectionKey(meta).Some? ==>
              var key := CollectionKey(meta).value;
              && (r.Failure? <==> (key in site && !site[key].List?) || (key !in site && key in Inherited))
              && (r.Success? ==>
                    && r.value.Keys == site.Keys + {key}
                    && r.value[key] == List(Listed(site, key) + [Obj(meta)])
                    && forall k :: k in site && k != key ==> r.value[k] == site[k])
  {
    match CollectionKey(meta)
    case None => Success(site)
    case Some(key) =>
      if key in site then
        match site[key]
        case List(items) => Success(site[key := List(items + [Obj(meta)])])
        case _ => Failure(NotAnArray(key))
      else if key in Inherited then Failure(NotAnArray(key))
      else Success(site[key := List([Obj(meta)])])
  }

  /**
   * The key `meta` is grouped under cannot take a push: it holds something
   * other than an array, or it is missing but inherited from `Object.prototype`.
   */
  predicate Blocks(site: Dict, meta: Dict) {
    && CollectionKey(meta).Some?
    && var key := CollectionKey(meta).value;
       (key in site && !site[key].List?) || (key !in site && key in Inherited)
  }

  /** `pages.forEach(function(page) { groupPages(page, site); })`. */
  function GroupPages(site: Dict, pages: seq<Page>): (r: Result<Dict, Error>)
    decreases |pages|
    ensures r.Success? ==> site.Keys <= r.value.Keys
    ensures r.Success? ==> forall k :: k in site && site[k].List? ==> r.value[k].List?
  {
    if |pages| == 0 then Success(site)
    else
      var next :- GroupPage(site, pages[0].locals.page);
      GroupPages(next, pages[1..])
  }

  /** A successful push leaves every key blocked exactly when it was blocked before. */
  lemma GroupPageKeepsBlocks(site: Dict, meta: Dict, other: Dict)
    requires GroupPage(site, meta).Success?
    ensures Blocks(GroupPage(site, meta).value, other) <==> Blocks(site, other)
  {
  }

  /**
   * Grouping fails exactly when some page names a collection whose key,
   * in the site object as it was before grouping, cannot take a push: keys
   * grouping creates are always arrays, so no page can block a later one.
   */
  lemma {:induction false} GroupPagesFails(site: Dict, pages: seq<Page>)
    ensures GroupPages(site, pages).Failure? <==>
              exists k :: 0 <= k < |pages| && Blocks(site, pages[k].locals.page)
    decreases |pages|
  {
    if |pages| > 0 {
      var m0 := pages[0].locals.page;
      var first := GroupPage(site, m0);
      if first.Success? {
        var next := first.value;
        GroupPagesFails(next, pages[1..]);
        forall k | 1 <= k < |pages|
          ensures Blocks(next, pages[k].locals.page) <==> Blocks(site, pages[k].locals.page)
        {
          GroupPageKeepsBlocks(site, m0, pages[k].locals.page);
        }
        assert !Blocks(site, m0);
        if exists k :: 0 <= k < |pages| && Blocks(site, pages[k].locals.page) {
          var k :| 0 <= k < |pages| && Blocks(site, pages[k].locals.page);
          assert pages[1..][k - 1] == pages[k];
        }
        if exists k :: 0 <= k < |pages[1..]| && Blocks(next, pages[1..][k].locals.page) {
          var k :| 0 <= k < |pages[1..]| && Blocks(next, pages[1..][k].locals.page);
          assert pages[1..][k] == pages[k + 1];
        }
      } else {
        assert Blocks(site, pages[0].locals.page);
      }
    }
  }

  /** The metadata of the pages grouped under `key`, in page order. */
  function Members(pages: seq<Page>, key: string): (ms: seq<Value>)
    ensures ms == [] <==> forall k :: 0 <= k < |pages| ==> CollectionKey(pages[k].locals.page) != Some(key)
  {
    if |pages| == 0 then []
    else
      var rest := Members(pages[1..], key);
      if CollectionKey(pages[0].locals.page) == Some(key) then [Obj(pages[0].locals.page)] + rest else rest
  }

  /**
   * After grouping, each collection lists what it held before followed by
   * the metadata of its pages in page order; a key no page names is left
   * exactly as it was.
   */
  lemma {:induction false} GroupPagesContents(site: Dict, pages: seq<Page>, key: string)
    requires GroupPages(site, pages).Success?
    ensures var r := GroupPages(site, pages).value;
            && (Members(pages, key) == [] ==> (key in r <==> key in site) && (key in site ==> r[key] == site[key]))
            && (Members(pages, key) != [] ==> key in r && r[key] == List(Listed(site, key) + Members(pages, key)))
    decreases |pages|
  {
    if |pages| > 0 {
      var m0 := pages[0].locals.page;
      var next := GroupPage(site, m0).value;
      assert GroupPages(site, pages) == GroupPages(next, pages[1..]);
      GroupPagesContents(next, pages[1..], key);
      if CollectionKey(m0) == Some(key) {
        assert Listed(next, key) == Listed(site, key) + [Obj(m0)];
        assert Members(pages, key) == [Obj(m0)] + Members(pages[1..], key);
      } else {
        assert Members(pages, key) == Members(pages[1..], key);
        assert (key in next <==> key in site) && (key in site ==> next[key] == site[key]);
      }
    }
  }
}

=== FILE: discovery.dfy ===
/**
 * `getPages` once the directory walk is done: every discovered file becomes
 * a page, and the pages are ordered newest first.
 */
module Discovery {
  import opened Results
  import opened Failures
  import opened Values
  import opened FrontMatter
  import opened Paths
  import opened Pages
  import opened Sorting

  /**
   * The number `b.locals.page.date - a.locals.page.date` subtracts: the
   * millisecond timestamp, or whatever number the front matter put there.
   */
  function DateKey(p: Page): (n: int)
    ensures Get(p.locals.page, "date").Num? ==> n == Get(p.locals.page, "date").n
    ensures Get(p.locals.page, "date") == Bool(true) ==> n == 1
    ensures Get(p.locals.page, "date") in {Null, Bool(false), Str(""), List([])} ==> n == 0
  {
    match Get(p.locals.page, "date")
    case Num(n) => n
    case Bool(b) => if b then 1 else 0
    case _ => 0
  }

  /** Newest first: dates never increase along the sequence. */
  predicate NewestFirst(pages: seq<Page>) {
    NonIncreasing(DateKey, pages)
  }

  /** `pages.sort(function(a, b) { return b.date - a.date; })`. */
  function SortByDate(pages: seq<Page>): (r: seq<Page>)
    ensures multiset(r) == multiset(pages)
    ensures NewestFirst(r)
  {
    var r := SortDescending(DateKey, pages);
    assert NonIncreasing(DateKey, r);
    r
  }

  /** `createPage` for every file, in walk order; the first parse error aborts. */
  function CreatePages(e: Engines, layouts: Layouts, files: seq<SourceFile>): (r: Result<seq<Page>, Error>)
    ensures r.Success? ==> |r.value| == |files|
  {
    MapAll(f => CreatePage(e, layouts, f), files)
  }

  /** `getPages()`, given the files the walk of the content root found. */
  function GetPages(e: Engines, layouts: Layouts, files: seq<SourceFile>): (r: Result<seq<Page>, Error>)
    ensures r.Success? <==> CreatePages(e, layouts, files).Success?
    ensures r.Success? ==>
              && multiset(r.value) == multiset(CreatePages(e, layouts, files).value)
              && NewestFirst(r.value)
  {
    var pages :- CreatePages(e, layouts, files);
    Success(SortByDate(pages))
  }

  /** The page created from each file lands where that file's path says. */
  lemma CreatedDests(e: Engines, layouts: Layouts, files: seq<SourceFile>)
    requires CreatePages(e, layouts, files).Success?
    ensures forall k :: 0 <= k < |files| ==>
              CreatePages(e, layouts, files).value[k].dest == Dest(files[k].dirs, Title(files[k].name))
  {
    MapAllEach(f => CreatePage(e, layouts, f), files);
    forall k | 0 <= k < |files|
      ensures CreatePages(e, layouts, files).value[k].dest == Dest(files[k].dirs, Title(files[k].name))
    {
      CreatePageShape(e, layouts, files[k]);
    }
  }
}

=== FILE: front_matter.dfy ===
/**
 * `getHeaderAndContent`: splits an optional `---`-fenced header off the
 * front of a content or layout file.
 */
module FrontMatter {
  import opened Text
  import opened Values
  import opened Results
  import opened Failures

  const Sep := "---"

  /** The string half of the split, before the header text is parsed. */
  datatype Cut =
    | NoHeader(body: string)
    | Header(text: string, body: string)

  /**
   * The split as the source writes it: when `content.indexOf('---')` is zero,
   * split on every `---`, drop the empty first piece, take the next piece as
   * the header text, and join what remains back together with `---`.
   */
  function CutHeader(s: string): (c: Cut)
    ensures c.Header? <==> StartsWith(s, Sep)
    ensures c.NoHeader? ==> c.body == s
    ensures c.Header? ==> !Contains(c.text, Sep)
    ensures c.Header? && Contains(s[|Sep|..], Sep) ==> s == Sep + c.text + Sep + c.body
    ensures c.Header? && !Contains(s[|Sep|..], Sep) ==> c.text == s[|Sep|..] && c.body == ""
  {
    IndexOfZero(s, Sep);
    if IndexOf(s, Sep) == 0 then
      var rest := Split(s, Sep)[1..];
      SplitAfterOpening(s);
      var c := Header(rest[0], Join(rest[1..], Sep));
      CutHeaderShape(s[|Sep|..], c.text, c.body);
      c
    else
      NoHeader(s)
  }

  /** Splitting text that opens with `---` yields an empty piece, then the split of the rest. */
  lemma SplitAfterOpening(s: string)
    requires StartsWith(s, Sep)
    ensures |Split(s, Sep)| >= 2 && Split(s, Sep)[1..] == Split(s[|Sep|..], Sep)
  {
    IndexOfZero(s, Sep);
    SplitFirst(s, Sep);
  }

  /**
   * Taking the first piece of a split and re-joining the others puts back
   * everything after the first separator.
   */
  lemma CutHeaderShape(t: string, text: string, body: string)
    requires text == Split(t, Sep)[0]
    requires body == Join(Split(t, Sep)[1..], Sep)
    ensures Contains(t, Sep) ==> t == text + Sep + body
    ensures Contains(t, Sep) ==> text == t[..IndexOf(t, Sep)] && body == t[IndexOf(t, Sep) + |Sep|..]
    ensures !Contains(t, Sep) ==> text == t && body == ""
  {
    if Contains(t, Sep) {
      var i := IndexOf(t, Sep);
      SplitFirst(t, Sep);
      var later := Split(t[i + |Sep|..], Sep);
      assert Split(t, Sep)[1..] == later;
      JoinSplit(t[i + |Sep|..], Sep);
      assert t == t[..i] + Sep + t[i + |Sep|..];
    }
  }

  /**
   * The header text ends at the first `---` after the opening one, and the
   * body is everything after that: later `---` lines belong to the body.
   */
  lemma CutHeaderFirst(s: string)
    requires StartsWith(s, Sep) && Contains(s[|Sep|..], Sep)
    ensures var i := IndexOf(s[|Sep|..], Sep);
            CutHeader(s) == Header(s[|Sep|..][..i], s[|Sep|..][i + |Sep|..])
  {
    var rest := Split(s, Sep)[1..];
    SplitAfterOpening(s);
    CutHeaderShape(s[|Sep|..], rest[0], Join(rest[1..], Sep));
  }

  /** The parsed header and the remaining content. */
  datatype Parts = Parts(header: Dict, content: string)

  /**
   * `getHeaderAndContent(content)`: the header is `{}` when the text does not
   * start with `---`; otherwise it is the YAML parse of the header text, and
   * the parse failing aborts the run.
   */
  function GetHeaderAndContent(yaml: string -> Option<Dict>, s: string): (r: Result<Parts, Error>)
    ensures !StartsWith(s, Sep) ==> r == Success(Parts(map[], s))
    ensures StartsWith(s, Sep) ==> (r.Failure? <==> yaml(CutHeader(s).text).None?)
    ensures StartsWith(s, Sep) && r.Success? ==> Some(r.value.header) == yaml(CutHeader(s).text)
    ensures StartsWith(s, Sep) && r.Success? && Contains(s[|Sep|..], Sep) ==>
              s == Sep + CutHeader(s).text + Sep + r.value.content
    ensures StartsWith(s, Sep) && r.Success? && !Contains(s[|Sep|..], Sep) ==> r.value.content == ""
    ensures r.Failure? ==> r.error == YamlError(CutHeader(s).text)
  {
    match CutHeader(s)
    case NoHeader(body) => Success(Parts(map[], body))
    case Header(text, body) =>
      match yaml(text)
      case None => Failure(YamlError(text))
      case Some(header) => Success(Parts(header, body))
  }

  /** A page with a title header: the body is what follows the second `---`. */
  lemma CutHeaderHomeExample()
    ensures CutHeader("---\nt: A\n---\nB") == Header("\nt: A\n", "\nB")
  {
    var t := "\nt: A\n---\nB";
    assert "---\nt: A\n---\nB"[3..] == t;
    assert OccursAt(t, Sep, 6);
    forall j | 0 <= j < 6
      ensures !OccursAt(t, Sep, j)
    {
      assert t[j] != '-';
    }
    IndexOfIs(t, Sep, 6);
    CutHeaderFirst("---\nt: A\n---\nB");
  }

  /** Text that does not open with `---` has no header. */
  lemma NoHeaderExample()
    ensures CutHeader("# Hi") == NoHeader("# Hi")
  {
    assert "# Hi"[..3] == "# H";
  }

  /** A `---` after the closing one stays in the body. */
  lemma LaterSeparatorExample()
    ensures CutHeader("---a---b---c") == Header("a", "b---c")
  {
    var t := "a---b---c";
    assert "---a---b---c"[3..] == t;
    assert OccursAt(t, Sep, 1);
    assert t[0] == 'a';
    IndexOfIs(t, Sep, 1);
    CutHeaderFirst("---a---b---c");
  }

  /** A header that is never closed takes the whole text, leaving no content. */
  lemma UnclosedHeaderExample()
    ensures CutHeader("---a") == Header("a", "")
  {
    assert "---a"[3..] == "a";
    assert !Contains("a", Sep);
  }
}

=== FILE: pages.dfy ===
/**
 * `createPage`: the page record built for one discovered content file,
 * with the file's stat time and text given rather than read.
 */
module Pages {
  import opened Results
  import opened Failures
  import opened Values
  import opened FrontMatter
  import opened Paths

  /** The name of the layout every page falls back to (`structure.defaultLayout`). */
  const DefaultLayout := "layout"

  /** The data a template sees: `page.locals`. */
  datatype Locals = Locals(
    /** `locals.page`: the page's metadata. */
    page: Dict,
    /** `locals.site`: set on the page's first render pass. */
    site: Option<Dict>,
    /** `locals.content`: the content rendered so far, set on every layout pass. */
    content: Option<string>)

  /**
   * The foreign libraries: `yaml.eval` (None when it throws or yields no
   * mapping), `markdown.toHTML` and `jade.render`.
   */
  datatype Engines = Engines(
    yaml: string -> Option<Dict>,
    markdown: string -> string,
    jade: (string, Locals) -> string)

  /**
   * The layouts directory: the text of `layouts/<name>.jade` for every
   * layout that exists.
   */
  type Layouts = map<string, string>

  /** A file found under the content root. */
  datatype SourceFile = SourceFile(
    /** `dirname(file).split('/')`, beginning with the content root. */
    dirs: seq<string>,
    /** The file's name, `basename(file)`. */
    name: string,
    /** `stat(file).mtime`, in milliseconds. */
    mtime: int,
    /** `read(file, 'utf8')`. */
    text: string)

  /** The page object that `createPage` builds and `render` rewrites. */
  datatype Page = Page(
    src: SourceFile,
    content: string,
    format: string,
    dest: seq<string>,
    locals: Locals,
    /** The next layout to apply; `Null` for none. */
    layout: Value,
    /** The `layout` key of the front matter read last. */
    headerLayout: Value,
    isLayout: bool,
    done: bool)

  /** `existentLayout(name)`: the name when `layouts/<name>.jade` exists, `undefined` otherwise. */
  function ExistentLayout(layouts: Layouts, name: string): (r: Value)
    ensures r != Null <==> name in layouts
    ensures r != Null ==> r == Str(name)
  {
    if name in layouts then Str(name) else Null
  }

  /**
   * `existentLayout(collection) || existentLayout(structure.defaultLayout)`:
   * the layout of the page's collection when there is one, else the default
   * layout when there is one, else none.
   */
  function StartLayout(layouts: Layouts, collection: Option<string>): (r: Value)
    ensures collection.Some? && collection.value != "" && collection.value in layouts ==>
              r == Str(collection.value)
    ensures (collection.None? || collection.value == "" || collection.value !in layouts) ==>
              r == (if DefaultLayout in layouts then Str(DefaultLayout) else Null)
  {
    var own := match collection
      case Some(c) => ExistentLayout(layouts, c)
      case None => Null;
    Or(own, ExistentLayout(layouts, DefaultLayout))
  }

  /** The metadata every page starts with: title, date, url and collection. */
  function Defaults(title: string, mtime: int, url: string, collection: Option<string>): (d: Dict)
    ensures "layout" !in d
    ensures d.Keys == {"title", "date", "url"} + (if collection.Some? then {"collection"} else {})
  {
    var base := map["title" := Str(title), "date" := Num(mtime), "url" := Str(url)];
    match collection
    case Some(c) => base["collection" := Str(c)]
    case None => base
  }

  /** The page metadata and the header's layout request, once front matter is merged in. */
  datatype Merged = Merged(meta: Dict, headerLayout: Value)

  /**
   * `page.headerLayout = header.layout; delete header.layout;
   * apply(page.locals.page, header)`.
   */
  function MergeHeader(defaults: Dict, header: Dict): (m: Merged)
    ensures m.headerLayout == Get(header, "layout")
    ensures m.meta.Keys == defaults.Keys + (header.Keys - {"layout"})
    ensures "layout" !in defaults ==> "layout" !in m.meta
    ensures forall k :: k in header && k != "layout" ==> m.meta[k] == header[k]
    ensures forall k :: k in defaults && k !in header ==> m.meta[k] == defaults[k]
  {
    Merged(Apply(defaults, header - {"layout"}), Get(header, "layout"))
  }

  /** `createPage(file)`; only the front-matter parse can fail. */
  function CreatePage(e: Engines, layouts: Layouts, f: SourceFile): (r: Result<Page, Error>)
    ensures r.Failure? <==> GetHeaderAndContent(e.yaml, f.text).Failure?
  {
    var format := Extname(f.name);
    var title := Title(f.name);
    var dest := Dest(f.dirs, title);
    var url := Url(dest);
    var collection := Collection(f.dirs);
    var parts :- GetHeaderAndContent(e.yaml, f.text);
    var layout := StartLayout(layouts, collection);
    var merged := MergeHeader(Defaults(title, f.mtime, url, collection), parts.header);
    Success(Page(f, parts.content, format, dest, Locals(merged.meta, None, None),
                 layout, merged.headerLayout, false, false))
  }

  /**
   * The page `createPage` builds: format and title come from the file name,
   * the destination from its directories and title, the starting layout from
   * its collection, and the content is what follows the front matter.
   */
  lemma CreatePageShape(e: Engines, layouts: Layouts, f: SourceFile)
    requires CreatePage(e, layouts, f).Success?
    ensures var p := CreatePage(e, layouts, f).value;
            && p.src == f
            && p.format == Extname(f.name)
            && p.dest == Dest(f.dirs, Title(f.name))
            && p.content == GetHeaderAndContent(e.yaml, f.text).value.content
            && p.layout == StartLayout(layouts, Collection(f.dirs))
            && p.locals == Locals(p.locals.page, None, None)
            && !p.isLayout && !p.done
  {
  }

  /**
   * The metadata `createPage` leaves in `page.locals.page`: the header's
   * `layout` is set aside in `headerLayout` and never stored, every other
   * header key overrides the default of the same name, and the defaults the
   * header does not mention survive.
   */
  lemma CreatePageMetadata(e: Engines, layouts: Layouts, f: SourceFile)
    requires CreatePage(e, layouts, f).Success?
    ensures var p := CreatePage(e, layouts, f).value;
            var header := GetHeaderAndContent(e.yaml, f.text).value.header;
            var meta := p.locals.page;
            && "layout" !in meta
            && p.headerLayout == Get(header, "layout")
            && meta.Keys == {"title", "date", "url"} + (if |f.dirs| > 1 then {"collection"} else {})
                            + (header.Keys - {"layout"})
            && (forall k :: k in header && k != "layout" ==> meta[k] == header[k])
            && ("title" !in header ==> meta["title"] == Str(Title(f.name)))
            && ("date" !in header ==> meta["date"] == Num(f.mtime))
            && ("url" !in header ==> meta["url"] == Str(Url(p.dest)))
            && ("collection" !in header && |f.dirs| > 1 ==> meta["collection"] == Str(f.dirs[1]))
  {
  }
}

=== FILE: paths.dfy ===
/**
 * The path arithmetic of `createPage`, on paths given as segment lists:
 * a discovered file is its directory segments (starting at the content
 * root, `dirname(file).split('/')`) plus its file name.
 */
module Paths {
  import Text
  import opened Results

  /** The offset of the last '.' in `s`, or -1. */
  function LastDot(s: string): (r: int)
    ensures -1 <= r < |s|
    ensures r >= 0 ==> s[r] == '.'
    ensures forall k :: r < k < |s| ==> s[k] != '.'
  {
    if |s| == 0 then -1
    else if s[|s| - 1] == '.' then |s| - 1
    else LastDot(s[..|s| - 1])
  }

  /**
   * `path.extname(name)`: from the last '.' to the end, except that a name
   * whose only dot leads it (`.bashrc`), a name with no dot, and `..` have
   * no extension.
   */
  function Extname(name: string): (ext: string)
    ensures |ext| <= |name| && ext == name[|name| - |ext|..]
    ensures ext != "" ==> ext[0] == '.' && |ext| < |name| && forall k :: 0 < k < |ext| ==> ext[k] != '.'
    ensures ext == "" && name != ".." ==> forall k :: 0 < k < |name| ==> name[k] != '.'
  {
    var d := LastDot(name);
    if d <= 0 || name == ".." then "" else name[d..]
  }

  /** `path.basename(file, extname(file))`: the file name without its extension. */
  function Title(name: string): (title: string)
    ensures title + Extname(name) == name
    ensures Extname(name) != "" ==> title != ""
  {
    name[..|name| - |Extname(name)|]
  }

  /** A segment that normalisation keeps as it is. */
  predicate Ordinary(seg: string) {
    seg != "" && seg != "." && seg != ".."
  }

  /** Every segment is ordinary. */
  predicate Clean(segs: seq<string>) {
    forall k :: 0 <= k < |segs| ==> Ordinary(segs[k])
  }

  /**
   * One step of `path.normalize`: an empty or `.` segment vanishes, `..`
   * removes the segment before it (at the start it stays in a relative path
   * and vanishes in an absolute one), any other segment is appended.
   */
  function Push(stack: seq<string>, seg: string, absolute: bool): seq<string> {
    if seg == "" || seg == "." then stack
    else if seg == ".." then
      if |stack| > 0 && stack[|stack| - 1] != ".." then stack[..|stack| - 1]
      else if absolute then stack
      else stack + [".."]
    else stack + [seg]
  }

  /**
   * What `path.normalize` leaves: no empty or `.` segment, `..` only as a
   * leading run, and none at all in an absolute path.
   */
  predicate Canonical(segs: seq<string>, absolute: bool) {
    && (forall k :: 0 <= k < |segs| ==> segs[k] != "" && segs[k] != ".")
    && (forall i, j :: 0 <= i < j < |segs| && segs[j] == ".." ==> segs[i] == "..")
    && (absolute ==> forall k :: 0 <= k < |segs| ==> segs[k] != "..")
  }

  /** `path.normalize`, segment by segment from the left. */
  function Normalize(segs: seq<string>, absolute: bool): (r: seq<string>)
    ensures Canonical(r, absolute)
    ensures |r| <= |segs|
  {
    if |segs| == 0 then []
    else Push(Normalize(segs[..|segs| - 1], absolute), segs[|segs| - 1], absolute)
  }

  /** A path already in normal form is left as it is, so normalising twice is normalising once. */
  lemma {:induction false} NormalizeCanonical(segs: seq<string>, absolute: bool)
    requires Canonical(segs, absolute)
    ensures Normalize(segs, absolute) == segs
  {
    if |segs| > 0 {
      var init := segs[..|segs| - 1];
      assert Canonical(init, absolute);
      NormalizeCanonical(init, absolute);
      assert init + [segs[|segs| - 1]] == segs;
    }
  }

  /** Normalising is idempotent. */
  lemma NormalizeIdempotent(segs: seq<string>, absolute: bool)
    ensures Normalize(Normalize(segs, absolute), absolute) == Normalize(segs, absolute)
  {
    NormalizeCanonical(Normalize(segs, absolute), absolute);
  }

  /** Normalising a path of ordinary segments changes nothing. */
  lemma {:induction false} NormalizeClean(segs: seq<string>, absolute: bool)
    requires Clean(segs)
    ensures Normalize(segs, absolute) == segs
  {
    if |segs| > 0 {
      var init := segs[..|segs| - 1];
      NormalizeClean(init, absolute);
      assert init + [segs[|segs| - 1]] == segs;
    }
  }

  /** Appending an ordinary segment appends it to the normalised path. */
  lemma NormalizeSnoc(segs: seq<string>, seg: string, absolute: bool)
    requires Ordinary(seg)
    ensures Normalize(segs + [seg], absolute) == Normalize(segs, absolute) + [seg]
  {
    assert (segs + [seg])[..|segs|] == segs;
  }

  /** `dirs.slice(1)`: the directory below the content root. */
  function BelowRoot(dirs: seq<string>): seq<string> {
    if |dirs| == 0 then [] else dirs[1..]
  }

  /** The file part of the destination: `index.html`, or `<title>/index.html`. */
  function DestBasename(title: string): seq<string> {
    if title != "index" then [title, "index.html"] else ["index.html"]
  }

  /**
   * `dest = join(dirs.slice(1).join('/'), destBasename)`: the destination
   * path, relative to the output directory.
   */
  function Dest(dirs: seq<string>, title: string): (dest: seq<string>)
    ensures |dest| >= 1 && dest[|dest| - 1] == "index.html"
    ensures Clean(BelowRoot(dirs)) && title == "index" ==> dest == BelowRoot(dirs) + ["index.html"]
    ensures Clean(BelowRoot(dirs)) && title != "index" && Ordinary(title) ==>
              dest == BelowRoot(dirs) + [title, "index.html"]
  {
    DestShape(dirs, title);
    Normalize(BelowRoot(dirs) + DestBasename(title), false)
  }

  lemma DestShape(dirs: seq<string>, title: string)
    ensures var dest := Normalize(BelowRoot(dirs) + DestBasename(title), false);
            && |dest| >= 1 && dest[|dest| - 1] == "index.html"
            && (Clean(BelowRoot(dirs)) && (title == "index" || Ordinary(title)) ==>
                  dest == BelowRoot(dirs) + DestBasename(title))
  {
    var segs := BelowRoot(dirs) + DestBasename(title);
    var init := segs[..|segs| - 1];
    assert segs == init + ["index.html"];
    NormalizeSnoc(init, "index.html", false);
    if Clean(BelowRoot(dirs)) && (title == "index" || Ordinary(title)) {
      if title == "index" {
        assert init == BelowRoot(dirs);
      } else {
        assert init == BelowRoot(dirs) + [title];
      }
      NormalizeClean(init, false);
    }
  }

  /**
   * `url = normalize('/' + dirname(dest))`: the destination's directory as an
   * absolute path.
   */
  function Url(dest: seq<string>): (url: string)
    requires |dest| >= 1
    ensures |url| >= 1 && url[0] == '/'
    ensures Clean(dest[..|dest| - 1]) ==> url == "/" + Text.Join(dest[..|dest| - 1], "/")
  {
    var dir := dest[..|dest| - 1];
    UrlShape(dir);
    "/" + Text.Join(Normalize(dir, true), "/")
  }

  lemma UrlShape(dir: seq<string>)
    ensures Clean(dir) ==> Normalize(dir, true) == dir
  {
    if Clean(dir) {
      NormalizeClean(dir, true);
    }
  }

  /** The collection: the second directory segment, `content/<collection>/…`. */
  function Collection(dirs: seq<string>): (c: Option<string>)
    ensures c.Some? <==> |dirs| > 1
    ensures c.Some? ==> c.value == dirs[1]
  {
    if |dirs| > 1 then Some(dirs[1]) else None
  }


  /** Title and format of a concrete file name. */
  lemma TitleExample()
    ensures Extname("index.md") == ".md" && Title("index.md") == "index"
    ensures Extname(".bashrc") == "" && Title(".bashrc") == ".bashrc"
  {
    assert LastDot("index.md") == 5 by {
      assert "index.md"[..7] == "index.m";
      assert "index.m"[..6] == "index.";
    }
    assert LastDot(".bashrc") == 0 by {
      assert ".bashrc"[..6] == ".bashr";
      assert ".bashr"[..5] == ".bash";
      assert ".bash"[..4] == ".bas";
      assert ".bas"[..3] == ".ba";
      assert ".ba"[..2] == ".b";
      assert ".b"[..1] == ".";
    }
  }

  /** Destinations of concrete files: an index page, a post, a root-level page. */
  lemma DestExamples()
    ensures Dest(["content", "blog"], "index") == ["blog", "index.html"]
    ensures Dest(["content", "blog"], "hello") == ["blog", "hello", "index.html"]
    ensures Dest(["content"], "about") == ["about", "index.html"]
  {
    assert BelowRoot(["content", "blog"]) == ["blog"];
    assert BelowRoot(["content"]) == [];
  }

  /** URLs and collections of concrete files. */
  lemma UrlExamples()
    ensures Url(["index.html"]) == "/"
    ensures Url(["blog", "hello", "index.html"]) == "/blog/hello"
    ensures Collection(["content"]) == None && Collection(["content", "posts", "x"]) == Some("posts")
  {
    var dir: seq<string> := ["blog", "hello"];
    assert ["blog", "hello", "index.html"][..2] == dir;
    assert dir[1..] == ["hello"];
    assert Text.Join(dir, "/") == "blog/hello";
  }
}

=== FILE: pipeline.dfy ===
/**
 * `generate`: discover pages, group them into the site object, then render
 * every page. The writes `save` performs become the list of outputs.
 */
module Pipeline {
  import opened Results
  import opened Failures
  import opened Values
  import opened Paths
  import opened Pages
  import opened Rendering
  import opened Collections
  import opened Discovery
  import opened Sorting

  /** One file written under the output directory. */
  datatype Output = Output(dest: seq<string>, content: string)

  /** Where `createPage` sends a discovered file. */
  function FileDest(f: SourceFile): (dest: seq<string>)
    ensures |dest| >= 1 && dest[|dest| - 1] == "index.html"
  {
    Dest(f.dirs, Title(f.name))
  }

  /** `pages.forEach(function(page) { save(render(page, site)); })`. */
  function RenderAll(e: Engines, layouts: Layouts, site: Dict, pages: seq<Page>, fuel: nat): (r: Result<seq<Output>, Error>)
    ensures r.Success? <==> forall k :: 0 <= k < |pages| ==> Render(e, layouts, site, pages[k], fuel).Success?
    ensures r.Success? ==>
              && |r.value| == |pages|
              && forall k :: 0 <= k < |pages| ==>
                   && r.value[k].dest == pages[k].dest
                   && r.value[k].content == Render(e, layouts, site, pages[k], fuel).value.content
  {
    if |pages| == 0 then Success([])
    else
      var done :- Render(e, layouts, site, pages[0], fuel);
      var rest :- RenderAll(e, layouts, site, pages[1..], fuel);
      Success([Output(done.dest, done.content)] + rest)
  }

  /** Where each output is written. */
  function OutputDests(outputs: seq<Output>): seq<seq<string>> {
    MapSeq((o: Output) => o.dest, outputs)
  }

  /** Where each discovered file's page belongs. */
  function FileDests(files: seq<SourceFile>): seq<seq<string>> {
    MapSeq(FileDest, files)
  }

  /**
   * `generate()`: `config` is the `site` object from `config.yaml` and
   * `files` are the files the walk of the content root found. Every file
   * yields exactly one output, at the destination computed from its path.
   */
  function Generate(e: Engines, layouts: Layouts, config: Dict, files: seq<SourceFile>, fuel: nat): (r: Result<seq<Output>, Error>)
    ensures r.Success? ==> multiset(OutputDests(r.value)) == multiset(FileDests(files))
    // The count and the membership below are corollaries of the multiset equality.
    ensures r.Success? ==> |r.value| == |files|
    ensures r.Success? ==>
              forall i :: 0 <= i < |r.value| ==> exists k :: 0 <= k < |files| && r.value[i].dest == FileDest(files[k])
  {
    var pages :- GetPages(e, layouts, files);
    var site :- GroupPages(config, pages);
    var outputs :- RenderAll(e, layouts, site, pages, fuel);
    var created := CreatePages(e, layouts, files).value;
    CreatedDests(e, layouts, files);
    OutputsAtFileDests(files, created, pages, outputs);
    Success(outputs)
  }

  /**
   * Outputs that follow a reordering of the pages, each created at its
   * file's destination, match the files one to one: the destinations
   * written are those of the files, each as often as it occurs there.
   */
  lemma OutputsAtFileDests(files: seq<SourceFile>, created: seq<Page>, pages: seq<Page>, outputs: seq<Output>)
    requires |created| == |files| && forall k :: 0 <= k < |files| ==> created[k].dest == FileDest(files[k])
    requires multiset(pages) == multiset(created)
    requires |outputs| == |pages| && forall k :: 0 <= k < |pages| ==> outputs[k].dest == pages[k].dest
    ensures multiset(OutputDests(outputs)) == multiset(FileDests(files))
    // The count and the membership below are corollaries of the multiset equality.
    ensures |outputs| == |files|
    ensures forall i :: 0 <= i < |outputs| ==> exists k :: 0 <= k < |files| && outputs[i].dest == FileDest(files[k])
  {
    var dest := (p: Page) => p.dest;
    MapPermutation(dest, pages, created);
    assert OutputDests(outputs) == MapSeq(dest, pages);
    assert FileDests(files) == MapSeq(dest, created);
    assert |pages| == |multiset(pages)| == |multiset(created)| == |created|;
    forall i | 0 <= i < |outputs|
      ensures exists k :: 0 <= k < |files| && outputs[i].dest == FileDest(files[k])
    {
      PermutationIndex(pages, created, i);
      var k :| 0 <= k < |created| && pages[i] == created[k];
      assert outputs[i].dest == FileDest(files[k]);
    }
  }
}

=== FILE: rendering.dfy ===
/**
 * `render`: the layout-chain state machine. A page is rendered once in its
 * own format, then wrapped by layout after layout until no layout is left.
 * The source recurses without bound; the model carries fuel and reports
 * `OutOfFuel` when a chain outlasts it.
 */
module Rendering {
  import opened Results
  import opened Failures
  import opened Values
  import opened FrontMatter
  import opened Pages

  const Markdown := ".md"
  const Jade := ".jade"

  /**
   * `page.layout == structure.defaultLayout`, JavaScript's loose equality
   * against the word "layout": only a string, or an array whose `String()`
   * form is that word, can compare equal to it.
   */
  predicate IsDefaultLayout(v: Value) {
    (v.Str? || v.List?) && ToStr(v) == DefaultLayout
  }

  /**
   * How the loose comparison treats each kind of value: a string matches
   * only the word itself; `null`, booleans, numbers and plain objects never
   * match; an array matches through its `String()` form.
   */
  lemma LooseEqualsDefault()
    ensures forall s :: IsDefaultLayout(Str(s)) <==> s == DefaultLayout
    ensures !IsDefaultLayout(Null) && !IsDefaultLayout(Bool(true)) && !IsDefaultLayout(Bool(false))
    ensures forall n :: !IsDefaultLayout(Num(n))
    ensures forall m :: !IsDefaultLayout(Obj(m))
    ensures IsDefaultLayout(List([Str(DefaultLayout)]))
    ensures !IsDefaultLayout(List([]))
  {
    assert ToStr(List([Str(DefaultLayout)])) == DefaultLayout;
  }

  /** The format-specific body transformation every pass ends with. */
  function Transform(e: Engines, p: Page): (content: string)
    ensures p.format == Markdown ==> content == e.markdown(p.content)
    ensures p.format == Jade ==> content == e.jade(p.content, p.locals)
    ensures p.format != Markdown && p.format != Jade ==> content == p.content
  {
    if p.format == Markdown then e.markdown(p.content)
    else if p.format == Jade then e.jade(p.content, p.locals)
    else p.content
  }

  /**
   * The set-up a pass does before transforming: a content pass exposes the
   * site; a layout pass loads `layouts/<layout>.jade`, hands the content so
   * far to it as `locals.content`, reads the layout's own `layout` header, and
   * resets the pointer to the default layout, or to none if the default
   * layout is the one being applied.
   */
  function Enter(e: Engines, layouts: Layouts, site: Dict, p: Page): (r: Result<Page, Error>)
    ensures !p.isLayout ==> r == Success(p.(locals := p.locals.(site := Some(site))))
    ensures p.isLayout && ToStr(p.layout) !in layouts ==> r == Failure(MissingLayout(ToStr(p.layout)))
    ensures p.isLayout && ToStr(p.layout) in layouts ==>
              (r.Success? <==> GetHeaderAndContent(e.yaml, layouts[ToStr(p.layout)]).Success?)
    ensures p.isLayout && ToStr(p.layout) in layouts && r.Failure? ==>
              r.error == GetHeaderAndContent(e.yaml, layouts[ToStr(p.layout)]).error
    ensures p.isLayout && r.Success? ==>
              && ToStr(p.layout) in layouts
              && var parts := GetHeaderAndContent(e.yaml, layouts[ToStr(p.layout)]);
              && parts.Success?
              && r.value == p.(format := Jade,
                               content := parts.value.content,
                               locals := p.locals.(content := Some(p.content)),
                               headerLayout := Get(parts.value.header, "layout"),
                               layout := if p.done then Null else Str(DefaultLayout))
  {
    if !p.isLayout then
      Success(p.(locals := p.locals.(site := Some(site))))
    else
      var name := ToStr(p.layout);
      if name !in layouts then Failure(MissingLayout(name))
      else
        var parts :- GetHeaderAndContent(e.yaml, layouts[name]);
        Success(p.(format := Jade,
                   content := parts.content,
                   locals := p.locals.(content := Some(p.content)),
                   headerLayout := Get(parts.header, "layout"),
                   layout := if p.done then Null else Str(DefaultLayout)))
  }

  /**
   * The layout the next pass applies: none when the header says
   * `layout: false`, else the header's layout when truthy, else the pointer.
   */
  function NextLayout(headerLayout: Value, layout: Value): (next: Value)
    ensures headerLayout == Bool(false) ==> next == Null
    ensures headerLayout != Bool(false) && Truthy(headerLayout) ==> next == headerLayout
    ensures headerLayout != Bool(false) && !Truthy(headerLayout) ==> next == layout
  {
    if headerLayout == Bool(false) then Null else Or(headerLayout, layout)
  }

  /** One pass of `render`: set up, transform the body, choose the next layout. */
  function Pass(e: Engines, layouts: Layouts, site: Dict, p: Page): (r: Result<Page, Error>)
    ensures !p.isLayout ==> r.Success? && r.value.headerLayout == p.headerLayout
    ensures p.isLayout ==> (r.Success? <==> Enter(e, layouts, site, p).Success?)
    ensures r.Failure? ==> r.error == Enter(e, layouts, site, p).error
    ensures r.Success? ==> r.value.layout == ChainStep(p.isLayout, p.done, p.layout, r.value.headerLayout)
    ensures r.Success? && !p.isLayout ==>
              r.value.format == p.format && r.value.locals == p.locals.(site := Some(site))
    ensures r.Success? && p.isLayout ==>
              r.value.format == Jade && r.value.locals == p.locals.(content := Some(p.content))
    ensures r.Success? ==>
              && r.value.src == p.src && r.value.dest == p.dest
              && r.value.isLayout == p.isLayout && r.value.done == p.done
  {
    var q :- Enter(e, layouts, site, p);
    var transformed := q.(content := Transform(e, q));
    Success(transformed.(layout := NextLayout(transformed.headerLayout, transformed.layout)))
  }

  /**
   * The layout pointer after a pass, as a function of the header consulted
   * and the pointer the pass started from.
   */
  function ChainStep(isLayout: bool, done: bool, layout: Value, headerLayout: Value): (next: Value)
    ensures headerLayout == Bool(false) ==> next == Null
    ensures headerLayout != Bool(false) && Truthy(headerLayout) ==> next == headerLayout
    ensures !Truthy(headerLayout) && headerLayout != Bool(false) ==>
              next == (if !isLayout then layout else if done then Null else Str(DefaultLayout))
  {
    NextLayout(headerLayout, if !isLayout then layout else if done then Null else Str(DefaultLayout))
  }

  /**
   * `render(page, site)`, with at most `fuel` passes. Source, destination and
   * metadata come out as they went in; the site is exposed from the first
   * pass on; a page that went through any layout ends in the template format
   * with the content before the last wrap in `locals.content`; and the chain
   * only stops once no truthy layout is left.
   */
  function Render(e: Engines, layouts: Layouts, site: Dict, p: Page, fuel: nat): (r: Result<Page, Error>)
    decreases fuel
    ensures r.Success? ==>
              var q := r.value;
              && q.src == p.src && q.dest == p.dest && q.locals.page == p.locals.page
              && !Truthy(q.layout)
              && (!p.isLayout ==> q.locals.site == Some(site))
              && (p.isLayout ==> q.locals.site == p.locals.site && q.isLayout)
              && (q.isLayout ==> q.format == Jade && q.locals.content.Some?)
              && (!q.isLayout ==> q.format == p.format)
  {
    if fuel == 0 then Failure(OutOfFuel)
    else
      var q :- Pass(e, layouts, site, p);
      if Truthy(q.layout) then
        Render(e, layouts, site, q.(isLayout := true, done := IsDefaultLayout(q.layout)), fuel - 1)
      else
        Success(q)
  }

  /** More fuel never changes a render that did not run out. */
  lemma {:induction false} RenderFuelMonotone(e: Engines, layouts: Layouts, site: Dict, p: Page, fuel: nat, more: nat)
    requires fuel <= more
    requires Render(e, layouts, site, p, fuel) != Failure(OutOfFuel)
    ensures Render(e, layouts, site, p, more) == Render(e, layouts, site, p, fuel)
    decreases fuel
  {
    var r := Pass(e, layouts, site, p);
    if r.Success? && Truthy(r.value.layout) {
      var q := r.value;
      RenderFuelMonotone(e, layouts, site, q.(isLayout := true, done := IsDefaultLayout(q.layout)), fuel - 1, more - 1);
    }
  }

  /** The page as its first pass leaves it, before any layout. */
  function FirstPass(e: Engines, site: Dict, p: Page): Page {
    var entered := p.(locals := p.locals.(site := Some(site)));
    entered.(content := Transform(e, entered))
  }

  /** A page whose front matter says `layout: false` is rendered once and never wrapped. */
  lemma SuppressedPageIsNotWrapped(e: Engines, layouts: Layouts, site: Dict, p: Page, fuel: nat)
    requires !p.isLayout && p.headerLayout == Bool(false) && fuel >= 1
    ensures Render(e, layouts, site, p, fuel) == Success(FirstPass(e, site, p).(layout := Null))
  {
    assert Pass(e, layouts, site, p) == Success(FirstPass(e, site, p).(layout := Null));
  }

  /**
   * A page with no `layout` request whose starting layout is the default
   * layout, which asks for no parent, takes exactly two passes: its own
   * format, then the default layout with the first result as `content`.
   */
  lemma DefaultLayoutWrapsOnce(e: Engines, layouts: Layouts, site: Dict, p: Page, fuel: nat)
    requires !p.isLayout && !Truthy(p.headerLayout) && p.headerLayout != Bool(false)
    requires p.layout == Str(DefaultLayout) && DefaultLayout in layouts
    requires GetHeaderAndContent(e.yaml, layouts[DefaultLayout]).Success?
    requires !Truthy(Get(GetHeaderAndContent(e.yaml, layouts[DefaultLayout]).value.header, "layout"))
    requires fuel >= 2
    ensures var parts := GetHeaderAndContent(e.yaml, layouts[DefaultLayout]).value;
            var r := Render(e, layouts, site, p, fuel);
            && r.Success?
            && r.value.content == e.jade(parts.content, Locals(p.locals.page, Some(site), Some(FirstPass(e, site, p).content)))
            && r.value.format == Jade
            && r.value.layout == Null
  {
    var first := FirstPass(e, site, p).(layout := Str(DefaultLayout));
    assert Pass(e, layouts, site, p) == Success(first);
    var second := first.(isLayout := true, done := true);
    assert IsDefaultLayout(Str(DefaultLayout));
    var q := Pass(e, layouts, site, second).value;
    assert q.layout == Null;
  }

  /** No layout file asks for a parent layout. */
  predicate NoChaining(e: Engines, layouts: Layouts) {
    forall name :: name in layouts ==>
      var parts := GetHeaderAndContent(e.yaml, layouts[name]);
      parts.Success? ==> !Truthy(Get(parts.value.header, "layout"))
  }

  /** Without chaining, a layout pass leaves the default layout to come, or nothing. */
  lemma LayoutPassUnchained(e: Engines, layouts: Layouts, site: Dict, p: Page)
    requires NoChaining(e, layouts) && p.isLayout
    ensures var r := Pass(e, layouts, site, p);
            r.Success? ==> r.value.layout == Null || (r.value.layout == Str(DefaultLayout) && !p.done)
  {
    var r := Pass(e, layouts, site, p);
    if r.Success? {
      var name := ToStr(p.layout);
      assert name in layouts;
    }
  }

  /**
   * Without chaining, a layout pass ends the chain within one more pass
   * when it applies the default layout, and within two otherwise.
   */
  lemma {:induction false} WrapEndsWithoutChaining(e: Engines, layouts: Layouts, site: Dict, p: Page, fuel: nat)
    requires NoChaining(e, layouts) && p.isLayout && fuel >= (if p.done then 1 else 2)
    ensures Render(e, layouts, site, p, fuel) != Failure(OutOfFuel)
    decreases fuel
  {
    LayoutPassUnchained(e, layouts, site, p);
    var r := Pass(e, layouts, site, p);
    if r.Success? && Truthy(r.value.layout) {
      assert IsDefaultLayout(Str(DefaultLayout));
      WrapEndsWithoutChaining(e, layouts, site, r.value.(isLayout := true, done := true), fuel - 1);
    }
  }

  /**
   * When no layout file names a parent, every page's chain ends within three
   * passes: its own format, its starting or requested layout, and the default
   * layout. Rendering may still fail on a missing layout file, but never for
   * want of fuel.
   */
  lemma RenderEndsWithoutChaining(e: Engines, layouts: Layouts, site: Dict, p: Page, fuel: nat)
    requires NoChaining(e, layouts) && !p.isLayout && fuel >= 3
    ensures Render(e, layouts, site, p, fuel) != Failure(OutOfFuel)
  {
    var q := Pass(e, layouts, site, p).value;
    if Truthy(q.layout) {
      WrapEndsWithoutChaining(e, layouts, site, q.(isLayout := true, done := IsDefaultLayout(q.layout)), fuel - 1);
    }
  }

  /** The file `layouts/<name>.jade` exists, its front matter parses, and its `layout` is `v`. */
  predicate Requests(e: Engines, layouts: Layouts, name: string, v: Value) {
    && name in layouts
    && GetHeaderAndContent(e.yaml, layouts[name]).Success?
    && Get(GetHeaderAndContent(e.yaml, layouts[name]).value.header, "layout") == v
  }

  /** A layout pass whose layout file requests a truthy layout moves the pointer there. */
  lemma LayoutPassFollowsRequest(e: Engines, layouts: Layouts, site: Dict, p: Page, v: Value)
    requires p.isLayout && Truthy(v) && Requests(e, layouts, ToStr(p.layout), v)
    ensures Pass(e, layouts, site, p).Success? && Pass(e, layouts, site, p).value.layout == v
  {
    var entered := Enter(e, layouts, site, p);
    assert entered.Success? && entered.value.headerLayout == v;
  }

  /** The page the next pass works on once a pass leaves a truthy layout. */
  function Wrapped(e: Engines, layouts: Layouts, site: Dict, p: Page): (w: Page)
    requires Pass(e, layouts, site, p).Success?
    ensures w.isLayout && w.layout == Pass(e, layouts, site, p).value.layout && w.done == IsDefaultLayout(w.layout)
  {
    var q := Pass(e, layouts, site, p).value;
    q.(isLayout := true, done := IsDefaultLayout(q.layout))
  }

  /** A pass that leaves a truthy layout hands rendering over to that layout. */
  lemma RenderStep(e: Engines, layouts: Layouts, site: Dict, p: Page, fuel: nat)
    requires fuel > 0 && Pass(e, layouts, site, p).Success? && Truthy(Pass(e, layouts, site, p).value.layout)
    ensures Render(e, layouts, site, p, fuel) == Render(e, layouts, site, Wrapped(e, layouts, site, p), fuel - 1)
  {
  }

  /**
   * Two layouts that name each other are applied in turn forever: no amount
   * of fuel finishes the render, whether or not one of them is the default
   * layout, since a truthy header request replaces the reset pointer.
   */
  lemma {:induction false} LayoutCycleNeverEnds(e: Engines, layouts: Layouts, site: Dict, p: Page, other: Value, fuel: nat)
    requires p.isLayout && Truthy(p.layout) && Truthy(other) && p.done == IsDefaultLayout(p.layout)
    requires Requests(e, layouts, ToStr(p.layout), other)
    requires Requests(e, layouts, ToStr(other), p.layout)
    ensures Render(e, layouts, site, p, fuel) == Failure(OutOfFuel)
    decreases fuel
  {
    if fuel > 0 {
      LayoutPassFollowsRequest(e, layouts, site, p, other);
      RenderStep(e, layouts, site, p, fuel);
      var next := Wrapped(e, layouts, site, p);
      assert next.isLayout;
      assert Truthy(next.layout);
      assert next.done == IsDefaultLayout(next.layout);
      assert Requests(e, layouts, ToStr(next.layout), p.layout);
      assert Requests(e, layouts, ToStr(p.layout), next.layout);
      LayoutCycleNeverEnds(e, layouts, site, next, p.layout, fuel - 1);
    }
  }

  /**
   * A layout whose own header names that same layout is applied forever;
   * the default layout is no exception.
   */
  lemma SelfNamedLayoutNeverEnds(e: Engines, layouts: Layouts, site: Dict, p: Page, fuel: nat)
    requires p.isLayout && Truthy(p.layout) && p.done == IsDefaultLayout(p.layout)
    requires Requests(e, layouts, ToStr(p.layout), p.layout)
    ensures Render(e, layouts, site, p, fuel) == Failure(OutOfFuel)
  {
    LayoutCycleNeverEnds(e, layouts, site, p, p.layout, fuel);
  }

  /**
   * The chain's last step reads `layouts/layout.jade` without probing for it:
   * a page whose collection layout exists, asks for no parent, and has no
   * default layout to fall back to, fails on the missing default layout.
   */
  lemma CollectionLayoutNeedsDefault(e: Engines, layouts: Layouts, site: Dict, p: Page, c: string, fuel: nat)
    requires !p.isLayout && !Truthy(p.headerLayout) && p.headerLayout != Bool(false)
    requires p.layout == Str(c) && c != "" && c in layouts && DefaultLayout !in layouts
    requires GetHeaderAndContent(e.yaml, layouts[c]).Success?
    requires var h := Get(GetHeaderAndContent(e.yaml, layouts[c]).value.header, "layout");
             !Truthy(h) && h != Bool(false)
    requires fuel >= 3
    ensures Render(e, layouts, site, p, fuel) == Failure(MissingLayout(DefaultLayout))
  {
    var first := FirstPass(e, site, p).(layout := Str(c));
    assert Pass(e, layouts, site, p) == Success(first);
    assert !IsDefaultLayout(Str(c));
    var second := first.(isLayout := true, done := false);
    var q := Pass(e, layouts, site, second).value;
    assert q.layout == Str(DefaultLayout);
    var third := q.(isLayout := true, done := true);
    assert Pass(e, layouts, site, third) == Failure(MissingLayout(DefaultLayout));
    assert Render(e, layouts, site, third, fuel - 2) == Failure(MissingLayout(DefaultLayout));
    assert Render(e, layouts, site, second, fuel - 1) == Failure(MissingLayout(DefaultLayout));
    assert Render(e, layouts, site, p, fuel) == Render(e, layouts, site, second, fuel - 1);
  }
}

=== FILE: results.dfy ===
/** Failure-compatible wrappers used throughout the model. */
module Results {

  /** A value that may be absent. */
  datatype Option<+T> = None | Some(value: T)

  /** The outcome of a step that may throw: a value, or the error that aborts the run. */
  datatype Result<+T, +E> = Success(value: T) | Failure(error: E) {

    predicate IsFailure() {
      Failure?
    }

    function PropagateFailure<U>(): Result<U, E>
      requires Failure?
    {
      Failure(error)
    }

    function Extract(): T
      requires Success?
    {
      value
    }
  }

  /** Applies `f` to every element in order, stopping at the first failure. */
  function MapAll<A, B, E>(f: A -> Result<B, E>, xs: seq<A>): (r: Result<seq<B>, E>)
    ensures r.Success? ==> |r.value| == |xs|
  {
    if |xs| == 0 then Success([])
    else
      var first :- f(xs[0]);
      var rest :- MapAll(f, xs[1..]);
      Success([first] + rest)
  }

  /**
   * `MapAll` succeeds exactly when `f` succeeds on every element, and then
   * holds the results in the same order.
   */
  lemma {:induction false} MapAllEach<A, B, E>(f: A -> Result<B, E>, xs: seq<A>)
    ensures MapAll(f, xs).Success? <==> forall k :: 0 <= k < |xs| ==> f(xs[k]).Success?
    ensures MapAll(f, xs).Success? ==> forall k :: 0 <= k < |xs| ==> MapAll(f, xs).value[k] == f(xs[k]).value
  {
    if |xs| > 0 {
      MapAllEach(f, xs[1..]);
      assert forall k :: 1 <= k < |xs| ==> xs[k] == xs[1..][k - 1];
    }
  }
}

/** The ways a run of the generator can abort. */
module Failures {

  datatype Error =
    /** `yaml.eval` threw on this front-matter text, or did not yield a mapping. */
    | YamlError(text: string)
    /** `readFileSync` threw: there is no `layouts/<name>.jade`. */
    | MissingLayout(name: string)
    /** `site[collection].push` was not a function: the key holds something other than an array. */
    | NotAnArray(collection: string)
    /** The layout chain was still going when the model's fuel ran out. */
    | OutOfFuel
}

=== FILE: sorting.dfy ===
/** A stable sort into non-increasing order of an integer key, and what a reordering keeps. */
module Sorting {

  /** Keys never increase along `xs`. */
  predicate NonIncreasing<T>(key: T -> int, xs: seq<T>) {
    forall i, j :: 0 <= i < j < |xs| ==> key(xs[i]) >= key(xs[j])
  }

  /** Places `x` before the first element whose key is not larger than `x`'s, so ahead of equal keys. */
  function Insert<T>(key: T -> int, x: T, sorted: seq<T>): (r: seq<T>)
    ensures |r| == |sorted| + 1
  {
    if |sorted| == 0 || key(x) >= key(sorted[0]) then [x] + sorted
    else [sorted[0]] + Insert(key, x, sorted[1..])
  }

  /** Inserting into a sorted list adds exactly `x` and keeps it sorted. */
  lemma {:induction false} InsertSorted<T>(key: T -> int, x: T, sorted: seq<T>)
    requires NonIncreasing(key, sorted)
    ensures multiset(Insert(key, x, sorted)) == multiset(sorted) + multiset{x}
    ensures NonIncreasing(key, Insert(key, x, sorted))
    ensures Insert(key, x, sorted)[0] == x || (|sorted| > 0 && Insert(key, x, sorted)[0] == sorted[0])
  {
    if |sorted| > 0 && key(x) < key(sorted[0]) {
      var tail := sorted[1..];
      InsertSorted(key, x, tail);
      var rest := Insert(key, x, tail);
      assert sorted == [sorted[0]] + tail;
      var r := [sorted[0]] + rest;
      forall i, j | 0 <= i < j < |r|
        ensures key(r[i]) >= key(r[j])
      {
        if i == 0 {
          assert key(sorted[0]) >= key(rest[0]);
          assert r[j] == rest[j - 1];
        }
      }
    }
  }

  /** Insertion sort, newest (largest key) first; equal keys keep their order. */
  function SortDescending<T>(key: T -> int, xs: seq<T>): (r: seq<T>)
    ensures multiset(r) == multiset(xs)
    ensures NonIncreasing(key, r)
  {
    if |xs| == 0 then []
    else
      var rest := SortDescending(key, xs[1..]);
      InsertSorted(key, xs[0], rest);
      assert xs == [xs[0]] + xs[1..];
      Insert(key, xs[0], rest)
  }

  /** Every element of a permutation of `ys` sits at some index of `ys`. */
  lemma PermutationIndex<T>(xs: seq<T>, ys: seq<T>, i: nat)
    requires multiset(xs) == multiset(ys) && i < |xs|
    ensures exists k :: 0 <= k < |ys| && xs[i] == ys[k]
  {
    assert xs[i] in multiset(ys);
  }

  /** `xs.map(f)`. */
  function MapSeq<T, U>(f: T -> U, xs: seq<T>): (r: seq<U>)
    ensures |r| == |xs| && forall k :: 0 <= k < |xs| ==> r[k] == f(xs[k])
  {
    seq(|xs|, k requires 0 <= k < |xs| => f(xs[k]))
  }

  /** Removing the element at `i` removes one copy of it from the multiset. */
  lemma RemoveAt<T>(ys: seq<T>, i: nat)
    requires i < |ys|
    ensures multiset(ys[..i] + ys[i + 1..]) == multiset(ys) - multiset{ys[i]}
  {
    assert ys == ys[..i] + [ys[i]] + ys[i + 1..];
  }

  /** Removing the element at `i` before mapping removes its image, and only that, from the multiset. */
  lemma MapRemoveAt<T, U>(f: T -> U, ys: seq<T>, i: nat)
    requires i < |ys|
    ensures multiset(MapSeq(f, ys[..i] + ys[i + 1..])) == multiset(MapSeq(f, ys)) - multiset{f(ys[i])}
  {
    var m := MapSeq(f, ys);
    assert MapSeq(f, ys[..i] + ys[i + 1..]) == m[..i] + m[i + 1..];
    RemoveAt(m, i);
  }

  /** Two multisets holding `v` that agree once one copy of `v` is taken out agree. */
  lemma AddBack<U>(a: multiset<U>, b: multiset<U>, v: U)
    requires v in a && v in b && a - multiset{v} == b - multiset{v}
    ensures a == b
  {
    assert a == a - multiset{v} + multiset{v};
    assert b == b - multiset{v} + multiset{v};
  }

  /** An element of a list's multiset sits at some index of the list. */
  lemma FindIndex<T>(ys: seq<T>, x: T) returns (i: nat)
    requires x in multiset(ys)
    ensures i < |ys| && ys[i] == x
  {
    i :| 0 <= i < |ys| && ys[i] == x;
  }

  /** Lists whose maps agree once one matching element is removed from each agree. */
  lemma MapPutBack<T, U>(f: T -> U, xs: seq<T>, i: nat, ys: seq<T>, j: nat)
    requires i < |xs| && j < |ys| && xs[i] == ys[j]
    requires multiset(MapSeq(f, xs[..i] + xs[i + 1..])) == multiset(MapSeq(f, ys[..j] + ys[j + 1..]))
    ensures multiset(MapSeq(f, xs)) == multiset(MapSeq(f, ys))
  {
    MapRemoveAt(f, xs, i);
    MapRemoveAt(f, ys, j);
    assert MapSeq(f, xs)[i] == f(xs[i]);
    assert MapSeq(f, ys)[j] == f(ys[j]);
    AddBack(multiset(MapSeq(f, xs)), multiset(MapSeq(f, ys)), f(xs[i]));
  }

  /** Mapping two reorderings of one list gives reorderings of one list. */
  lemma {:induction false} MapPermutation<T, U>(f: T -> U, xs: seq<T>, ys: seq<T>)
    requires multiset(xs) == multiset(ys)
    ensures multiset(MapSeq(f, xs)) == multiset(MapSeq(f, ys))
    decreases |xs|
  {
    if |xs| > 0 {
      var j := FindIndex(ys, xs[0]);
      RemoveAt(xs, 0);
      RemoveAt(ys, j);
      MapPermutation(f, xs[..0] + xs[1..], ys[..j] + ys[j + 1..]);
      MapPutBack(f, xs, 0, ys, j);
    }
  }
}

=== FILE: text.dfy ===
/** The JavaScript string operations the generator relies on: `indexOf`, `split` and `join`. */
module Text {

  /** `s` begins with `p`. */
  predicate StartsWith(s: string, p: string) {
    |p| <= |s| && s[..|p|] == p
  }

  /** `p` occurs in `s` at offset `i`. */
  predicate OccursAt(s: string, p: string, i: int) {
    0 <= i && i + |p| <= |s| && s[i..i + |p|] == p
  }

  /** `p` occurs somewhere in `s`. */
  predicate Contains(s: string, p: string) {
    exists i | 0 <= i <= |s| :: OccursAt(s, p, i)
  }

  /** `s.indexOf(p, from)`: the first offset at or after `from` where `p` occurs, or -1. */
  function IndexOfFrom(s: string, p: string, from: nat): (r: int)
    decreases |s| - from
    ensures r == -1 || (from <= r && OccursAt(s, p, r))
    ensures r == -1 ==> forall i :: from <= i ==> !OccursAt(s, p, i)
    ensures r != -1 ==> forall i :: from <= i < r ==> !OccursAt(s, p, i)
  {
    if from + |p| > |s| then -1
    else if s[from..from + |p|] == p then from
    else IndexOfFrom(s, p, from + 1)
  }

  /** `s.indexOf(p)`. */
  function IndexOf(s: string, p: string): (r: int)
    ensures r == -1 <==> !Contains(s, p)
    ensures r != -1 ==> OccursAt(s, p, r) && forall i :: 0 <= i < r ==> !OccursAt(s, p, i)
  {
    IndexOfFrom(s, p, 0)
  }

  /** `s.indexOf(p)` is zero exactly when `s` begins with `p`. */
  lemma IndexOfZero(s: string, p: string)
    ensures IndexOf(s, p) == 0 <==> StartsWith(s, p)
  {
    if StartsWith(s, p) {
      assert OccursAt(s, p, 0);
    }
  }

  /** An occurrence with none before it is what `indexOf` finds. */
  lemma IndexOfIs(s: string, p: string, i: nat)
    requires OccursAt(s, p, i)
    requires forall j :: 0 <= j < i ==> !OccursAt(s, p, j)
    ensures IndexOf(s, p) == i
  {
    assert Contains(s, p);
  }

  /** An occurrence inside a prefix is an occurrence in the whole string. */
  lemma OccursInPrefix(s: string, p: string, n: nat, i: int)
    requires n <= |s|
    requires OccursAt(s[..n], p, i)
    ensures OccursAt(s, p, i)
  {
    assert s[..n][i..i + |p|] == s[i..i + |p|];
  }

  /**
   * `s.split(sep)` for a non-empty separator: the pieces between the
   * occurrences of `sep`, found left to right without overlap.
   */
  function Split(s: string, sep: string): (parts: seq<string>)
    requires |sep| > 0
    decreases |s|
    ensures |parts| >= 1
    ensures Contains(s, sep) <==> |parts| >= 2
    ensures forall k :: 0 <= k < |parts| ==> !Contains(parts[k], sep)
  {
    var i := IndexOf(s, sep);
    if i < 0 then [s]
    else
      var rest := Split(s[i + |sep|..], sep);
      assert !Contains(s[..i], sep) by {
        forall j | OccursAt(s[..i], sep, j)
          ensures false
        {
          OccursInPrefix(s, sep, i, j);
        }
      }
      [s[..i]] + rest
  }

  /** `parts.join(sep)`. */
  function Join(parts: seq<string>, sep: string): string {
    if |parts| == 0 then ""
    else if |parts| == 1 then parts[0]
    else parts[0] + sep + Join(parts[1..], sep)
  }

  /** Joining the pieces of a split with the same separator gives back the original string. */
  lemma {:induction false} JoinSplit(s: string, sep: string)
    requires |sep| > 0
    decreases |s|
    ensures Join(Split(s, sep), sep) == s
  {
    var i := IndexOf(s, sep);
    if i >= 0 {
      var rest := Split(s[i + |sep|..], sep);
      JoinSplit(s[i + |sep|..], sep);
      var parts := Split(s, sep);
      assert parts == [s[..i]] + rest;
      assert parts[1..] == rest;
      assert s == s[..i] + sep + s[i + |sep|..];
    }
  }

  /** The first piece of a split is the text before the first separator. */
  lemma SplitFirst(s: string, sep: string)
    requires |sep| > 0
    requires Contains(s, sep)
    ensures var i := IndexOf(s, sep);
            Split(s, sep) == [s[..i]] + Split(s[i + |sep|..], sep)
  {
  }
}

=== FILE: values.dfy ===
/**
 * The JavaScript values that flow through front matter, page metadata and
 * the site object, with the few coercions the generator applies to them.
 */
module Values {
  import Text

  /**
   * A JSON-like value. `undefined` and `null` are both `Null`: every check the
   * generator makes (`||`, `=== false`, `if (x)`) treats them alike.
   */
  datatype Value =
    | Null
    | Bool(b: bool)
    | Num(n: int)
    | Str(s: string)
    | List(items: seq<Value>)
    | Obj(fields: map<string, Value>)

  /** A plain object: front matter, page metadata, the site object. */
  type Dict = map<string, Value>

  /** JavaScript truthiness: `null`, `false`, `0` and `""` are falsy. */
  predicate Truthy(v: Value) {
    match v
    case Null => false
    case Bool(b) => b
    case Num(n) => n != 0
    case Str(s) => s != ""
    case List(_) => true
    case Obj(_) => true
  }

  /** `d[k]`: a missing property reads as `undefined`. */
  function Get(d: Dict, k: string): (v: Value)
    ensures k !in d ==> v == Null
    ensures k in d ==> v == d[k]
  {
    if k in d then d[k] else Null
  }

  /** `a || b`. */
  function Or(a: Value, b: Value): (r: Value)
    ensures Truthy(r) <==> Truthy(a) || Truthy(b)
    ensures r == a || r == b
    ensures Truthy(a) ==> r == a
  {
    if Truthy(a) then a else b
  }

  /** The decimal digit for `d`. */
  function DigitChar(d: nat): (c: char)
    requires d < 10
    ensures '0' <= c <= '9' && (c as int) - ('0' as int) == d
  {
    "0123456789"[d]
  }

  /** Only decimal digits. */
  predicate Digits(s: string) {
    forall k :: 0 <= k < |s| ==> '0' <= s[k] <= '9'
  }

  /** The number a string of decimal digits denotes. */
  function ParseNat(s: string): nat
    requires Digits(s)
  {
    if |s| == 0 then 0 else ParseNat(s[..|s| - 1]) * 10 + ((s[|s| - 1] as int) - ('0' as int))
  }

  /** The decimal numeral of `n`. */
  function NatToString(n: nat): (s: string)
    ensures |s| >= 1 && Digits(s)
    ensures |s| > 1 ==> s[0] != '0'
  {
    if n < 10 then [DigitChar(n)] else NatToString(n / 10) + [DigitChar(n % 10)]
  }

  /** The numeral reads back as the number it was written from. */
  lemma {:induction false} NatToStringRoundTrip(n: nat)
    ensures ParseNat(NatToString(n)) == n
  {
    var s := NatToString(n);
    if n >= 10 {
      NatToStringRoundTrip(n / 10);
      assert s[..|s| - 1] == NatToString(n / 10);
    } else {
      assert s[..0] == [];
    }
  }

  /** `String(n)` for an integer. */
  function IntToString(n: int): (s: string)
    ensures n >= 0 ==> |s| >= 1 && (|s| > 1 ==> s[0] != '0') && Digits(s) && ParseNat(s) == n
    ensures n < 0 ==> |s| >= 2 && s[0] == '-' && s[1] != '0' && Digits(s[1..]) && ParseNat(s[1..]) == -n
  {
    if n < 0 then
      NatToStringRoundTrip(-n);
      assert ("-" + NatToString(-n))[1..] == NatToString(-n);
      "-" + NatToString(-n)
    else
      NatToStringRoundTrip(n);
      NatToString(n)
  }

  /**
   * `String(v)`, the coercion applied when a value becomes a property key
   * (`site[collection]`) or part of a path (`page.layout + '.jade'`).
   * An array converts to its elements joined by commas, `null` elements as "".
   */
  function ToStr(v: Value): (s: string)
    decreases v, 0
    ensures v.Str? ==> s == v.s
    ensures v.Num? ==> (v.n >= 0 <==> Digits(s)) && (Digits(s) ==> ParseNat(s) == v.n)
    ensures v.Num? && v.n >= 0 ==> |s| >= 1 && (|s| > 1 ==> s[0] != '0')
    ensures v.Num? && v.n < 0 ==> |s| >= 2 && s[0] == '-' && s[1] != '0' && Digits(s[1..]) && ParseNat(s[1..]) == -v.n
    ensures v.List? && |v.items| == 0 ==> s == ""
    ensures v.List? && |v.items| == 1 ==> s == ElementToStr(v.items[0])
    ensures v.Obj? ==> s == "[object Object]"
  {
    match v
    case Null => "null"
    case Bool(b) => if b then "true" else "false"
    case Num(n) => IntToString(n)
    case Str(s) => s
    case List(items) =>
      Text.Join(seq(|items|, k requires 0 <= k < |items| => ElementToStr(items[k])), ",")
    case Obj(_) => "[object Object]"
  }

  /**
   * A number and its numeral name the same property: `collection: 5` in a
   * header and a `content/5/` directory both group under `site["5"]`.
   */
  lemma NumberKeyExample()
    ensures ToStr(Num(5)) == ToStr(Str("5")) == "5"
    ensures ToStr(Num(-12)) == "-12"
  {
    assert NatToString(12) == NatToString(1) + [DigitChar(2)];
  }

  /** How `Array.prototype.join` writes one element. */
  function ElementToStr(v: Value): string
    decreases v, 1
  {
    if v == Null then "" else ToStr(v)
  }

  /**
   * `apply(destination, source)`: every own property of `source` is copied
   * onto `destination`, overwriting a property of the same name.
   */
  function Apply(destination: Dict, source: Dict): (r: Dict)
    ensures r.Keys == destination.Keys + source.Keys
    ensures forall k :: k in source ==> r[k] == source[k]
    ensures forall k :: k in destination && k !in source ==> r[k] == destination[k]
  {
    destination + source
  }
}
